=== FILE: README.md ===
# Coworking-space site: feed, scroll switchers and small UI state, in Dafny

This project models the sequential logic underneath a brochure website for a
coworking space. Four groups of logic are covered:

- **News feed.** A proxy route (`GET /api/instagram/news`) turns Graph API
  media records into posts and pagination. A client hook keeps the feed state:
  `posts`, `loading`, `loadingMore`, `error`, `nextCursor` and `hasMore`. It
  exposes `loadMore` and `refresh`. The news page picks a skeleton, error or
  feed view from that state, and it truncates captions.
- **Scroll switchers.** Two components watch batches of intersection entries.
  They activate the section with the first strictly greatest intersecting ratio
  once it reaches a threshold: 0.2 in the facility switcher and 0.3 in the image switcher
  (`ScrollImageSwitcher`).
  The facility variant also derives a progress percentage and a `NN / NN`
  counter. Both keep a map from section id to element.
- **Small UI state.** The hero slider counter wraps over 1..5. The FAQ and the
  facility-rules accordions keep a set of open items.
- **Title splitting.** The Value block splits a title on the escape `\n` (a
  backslash followed by `n`) when the title contains one. Otherwise it splits
  on real newlines.

The network, the environment variables and the intersection observer are
inputs. The upstream service is a function from request URL to reply. A fetch
seen by the hook is a `FetchOutcome`. An observer callback is a sequence of
`Entry` values. A hook fetch is two atomic transitions: `StartFetch` and
`Complete`.

Modules, one per source concern: `Common` (optional values, truthiness,
`padStart`), `Text` (split/join), `FeedTypes`, `FeedRoute`, `FeedHook`,
`FeedView`, `SectionTracker` (the selection loop shared by both switchers),
`FacilitySwitcher`, `ImageSwitcher`, `Hero`, `Accordion`, `ValueTitle`.

Behaviour of the code worth knowing:

- The hook has no request-generation counter. A `loadMore` reply that arrives
  after a `refresh` is still appended (`FeedHook.StaleLoadMoreIsApplied`).
  `refresh` during a load-more raises `loading` and `loadingMore` together.
- Nothing removes duplicate posts across pages.
- After a failed `refresh`, `loadMore` is still available with no cursor. It
  asks for the first page again and appends it to the posts shown before
  (`FeedHook.FailedRefreshReloadsFirstPage`).
- Progress is `(index + 1) / count * 100`, so the first section gives
  `100 / count`, not 0. Before the first activation the `progress` state is 0
  (`FacilitySwitcher.InitialProgressLagsFormula`).
- `progress` is computed and stored but never displayed. The on-screen
  indicator is the row of dot buttons and the `NN / NN` counter, both of which
  follow the active section.
- An id in a batch that is not in the section list is not ignored. It becomes
  active, and its progress is 0 because `findIndex` returns -1.

## Model

| member | source | states |
|---|---|---|
| `Common.Pad2` | src/components/FacilityScrollSwitcher.tsx:285-286 | `String(n).padStart(2, "0")` has at least two digits, exactly two below 100, and is the plain decimal from 10 up |
| `Common.Pad2RoundTrip` | src/components/FacilityScrollSwitcher.tsx:285-286 | a padded number reads back as the same number |
| `Common.DecimalRoundTrip` | src/hooks/use-instagram-news.ts:37 | the decimal text of the page size reads back as the page size |
| `Text.Split` | src/components/Value.tsx:45 | `split` always yields at least one piece |
| `Text.JoinSplit` | src/components/Value.tsx:45-48 | joining the pieces with the separator gives the original title back |
| `Text.SplitSingleIffAbsent` | src/components/Value.tsx:45-46 | `lines.length === 1` holds exactly when the separator does not occur |
| `Text.SplitPiecesFree` | src/components/Value.tsx:45-48 | no piece contains the separator it was split on |
| `ValueTitle.SplitTitle` | src/components/Value.tsx:44-62 | the escape `\n` is used exactly when the title contains it, otherwise a real newline; the lines re-join to the title and none contains the separator used |
| `ValueTitle.FragmentsShape` | src/components/Value.tsx:49-61 | the fragments show every line in order, with lines − 1 breaks |
| `ValueTitle.FragmentsAlternate` | src/components/Value.tsx:49-61 | for n lines the fragments are 2n − 1 long: line i sits at position 2i and a break at every odd position, so exactly one break separates neighbours and none follows the last line |
| `ValueTitle.RenderTitle` | src/components/Value.tsx:44-62 | `renderTitle` shows exactly the split lines in order, alternating with line breaks: lines − 1 breaks, one between each pair of neighbours |
| `ValueTitle.EscapeTakesPrecedence` | src/components/Value.tsx:45-48 | every title with both an escape and a real newline is cut on the escape, and some line still contains the real newline |
| `ValueTitle.MixedBreaksExample` | src/components/Value.tsx:45-48 | example: the title `a\nb`, newline, `c` gives the lines `a` and `b`, newline, `c` |
| `Text.JoinCharOrigin` | src/components/Value.tsx:45-48 | a character of the joined title that is not a separator character lies in one of the pieces |
| `Text.ContainsCharInPiece` | src/components/Value.tsx:45-48 | a character outside the separator that occurs in the joined title occurs in some piece |
| `FeedRoute.LimitParam` | src/app/api/instagram/news/route.ts:30 | `limit` is the query value when present and non-empty, else "10"; never empty |
| `FeedRoute.AfterParam` | src/app/api/instagram/news/route.ts:31 | `after` is the query value when present, else "" |
| `FeedRoute.Lookup` | src/app/api/instagram/news/route.ts:29-31 | `searchParams.get`: the value of the first pair sent under the name, and none exactly when no pair has that name |
| `FeedRoute.UpstreamUrl` | src/app/api/instagram/news/route.ts:49-53 | the URL extends the media URL, and extends it exactly when `after` is non-empty, by `&after=` plus the cursor |
| `FeedRoute.FormatPost` | src/app/api/instagram/news/route.ts:77-90 | id, permalink, timestamp and type are copied; the video URL is present iff the type is VIDEO; thumbnail falls back to the media URL; caption to ""; counts to 0; the two flags follow the type |
| `FeedRoute.FormatPosts` | src/app/api/instagram/news/route.ts:77-90 | one post per media record, in upstream order, all well formed (flags agree with the type, never both set) |
| `FeedRoute.FormatPagination` | src/app/api/instagram/news/route.ts:91-94 | `hasNext` iff `paging.next` is present and non-empty; `nextCursor` iff `paging.cursors.after` is non-empty, and then equal to it |
| `FeedRoute.Finish` | src/app/api/instagram/news/route.ts:64-104 | a non-ok upstream gives its status with the fixed `UpstreamError` message, the upstream body being dropped; a throw or missing `data` gives 500 with the server error; a success is 200 with the formatted posts and pagination; every error text is non-empty |
| `FeedRoute.Get` | src/app/api/instagram/news/route.ts:27-104 | without both credentials the answer is 500 with the configuration error; with them, the answer is the upstream reply to the built URL, finished |
| `FeedRoute.UnconfiguredIgnoresUpstream` | src/app/api/instagram/news/route.ts:37-42 | without credentials no upstream behaviour can change the answer (no upstream call) |
| `FeedRoute.GetAnswerShape` | src/app/api/instagram/news/route.ts:37-104 | every error answer carries a non-empty message; every success is 200 with well-formed posts |
| `FeedHook.Initial` | src/hooks/use-instagram-news.ts:21-26 | no posts, loading, not loading more, no error, no cursor, more available |
| `FeedHook.RequestParams` | src/hooks/use-instagram-news.ts:36-42 | `limit` is always sent first; `after` is sent, with the cursor, exactly when the cursor is present and non-empty |
| `FeedHook.StartFetch` | src/hooks/use-instagram-news.ts:31-34 | starting a fetch clears the error and raises `loading` (plain) or `loadingMore` (load-more); nothing else changes |
| `FeedHook.ErrorMessage` | src/hooks/use-instagram-news.ts:46-48 | a non-ok reply records the body's error, or the fallback text when that is missing or empty; a thrown `Error` records its message; anything else records the generic text |
| `FeedHook.Complete` | src/hooks/use-instagram-news.ts:53-69 | both flags end false; success appends (load-more) or replaces (plain) and takes cursor and `hasMore` from the page; failure records the error and keeps posts, cursor and `hasMore` |
| `FeedHook.Mount` | src/hooks/use-instagram-news.ts:85-87 | mounting leaves the initial state as it is (already loading, no error) and starts a replacing (not appending) fetch that sends only `limit` |
| `FeedHook.LoadMore` | src/hooks/use-instagram-news.ts:74-77 | no request and no state change exactly when `hasMore` is false or a fetch flag is up; otherwise an appending fetch from the stored cursor that keeps posts, cursor and `hasMore` |
| `FeedHook.Refresh` | src/hooks/use-instagram-news.ts:79-83 | cursor cleared, `hasMore` set, a replacing (not appending) fetch that sends no `after`; never blocked |
| `FeedHook.LoadMoreAfterComplete` | src/hooks/use-instagram-news.ts:59-77 | after a completed fetch `loadMore` is available exactly when the page said `hasNext` (or, after a failure, when `hasMore` already held) |
| `FeedHook.AppendThenRefreshReplaces` | src/hooks/use-instagram-news.ts:53-57 | pages [a,b,c] then [d,e] give [a,b,c,d,e]; a following refresh answered with [x,y] gives exactly [x,y] |
| `FeedHook.FailedLoadMoreThenRetry` | src/hooks/use-instagram-news.ts:61-69 | a failed load-more keeps the posts, records the message and leaves `loadMore` available; a successful retry clears the error and appends |
| `FeedHook.StaleLoadMoreIsApplied` | src/hooks/use-instagram-news.ts:74-83 | refresh during a load-more raises both flags, and a late load-more reply is appended to the refreshed posts |
| `FeedHook.FailedRefreshReloadsFirstPage` | src/hooks/use-instagram-news.ts:61-83 | after a failed refresh the posts are kept and `loadMore` asks for the first page again (only `limit`), appending it to the old posts |
| `FeedHook.RunConsistent` | src/hooks/use-instagram-news.ts:31-69 | in every reachable state an error implies no fetch flag is up, and all posts are well formed when every delivered page was |
| `FeedHook.RequestReachesUpstream` | src/hooks/use-instagram-news.ts:36-44 | the route reads the hook's page size as `limit` and its cursor as `after`, and asks the Graph API for the media URL with `&after=` plus the cursor exactly when the hook sent one |
| `FeedHook.DefaultsAgree` | src/hooks/use-instagram-news.ts:18-20 | the hook's default page size 10 is the route's default `limit` "10" |
| `FeedHook.RouteErrorReachesHook` | src/hooks/use-instagram-news.ts:46-48 | when the upstream reports failures with non-2xx statuses, every error answer of the route has a not-ok status and its message is recorded by the hook verbatim |
| `FeedView.Truncate` | src/components/InstagramNews.tsx:43-46 | a caption within the limit is unchanged; a longer one becomes a prefix of the caption of the limit's length followed by "..." |
| `FeedView.TruncateIdempotent` | src/components/InstagramNews.tsx:43-46 | truncating a truncated caption changes nothing |
| `FeedView.TruncateBound` | src/components/InstagramNews.tsx:43-46 | a truncated caption is at most the limit plus the ellipsis long (or is the caption itself), and never longer than the caption plus the ellipsis |
| `FeedView.AltText` | src/components/InstagramNews.tsx:58-60 | the placeholder for an empty caption, else the caption truncated to 50; never over 53 characters |
| `FeedView.CardCaption` | src/components/InstagramNews.tsx:119-121 | no caption paragraph for an empty caption; otherwise the caption truncated with the default length 150, unchanged when it fits |
| `FeedView.ChooseView` | src/components/InstagramNews.tsx:171-310 | skeleton iff loading with no posts; full error iff not loading, a non-empty error and no posts; otherwise the alert iff error and posts, grid iff posts, load-more button iff posts and `hasMore`, refresh and load-more buttons disabled iff loading |
| `FeedView.MountShowsSkeleton` | src/components/InstagramNews.tsx:171 | a freshly mounted page shows the skeleton |
| `FeedView.FailedFirstLoadShowsError` | src/components/InstagramNews.tsx:191-222 | a failed first load shows the full-page error with the recorded message |
| `FeedView.FailedLoadMoreShowsAlert` | src/components/InstagramNews.tsx:261-267 | a failed load-more keeps the grid and shows the partial-failure alert |
| `FeedView.ErrorIsAlwaysShown` | src/components/InstagramNews.tsx:191-267 | in a consistent state a non-empty error is always on screen, as the full error or as the alert |
| `FeedView.VisibleButtonFetches` | src/components/InstagramNews.tsx:279-283 | pressing the shown, enabled load-more button fetches exactly when no load-more is in flight |
| `SectionTracker.Visit` | src/components/FacilityScrollSwitcher.tsx:78-87 | an intersecting entry with a strictly larger ratio raises the maximum to its ratio and, when labelled, makes its id the chosen one; an unlabelled one keeps the id; any other entry changes nothing |
| `SectionTracker.ScanMaximum` | src/components/FacilityScrollSwitcher.tsx:75-88 | the walk ends with a maximum of at least 0 that bounds every intersecting ratio; a positive maximum is the ratio of the first entry attaining it; a zero maximum chose no id |
| `SectionTracker.ScanIdOrigin` | src/components/FacilityScrollSwitcher.tsx:80-86 | a chosen id is the id of an intersecting, labelled entry with positive ratio |
| `SectionTracker.ScanChoosesWinner` | src/components/ScrollImageSwitcher.tsx:86-99 | when all intersecting entries are labelled, the chosen id is that of the first entry with the largest positive ratio (earliest wins ties, ratio 0 never wins) |
| `SectionTracker.WinnerUnique` | src/components/ScrollImageSwitcher.tsx:89-98 | there is at most one first-greatest entry |
| `SectionTracker.NothingVisibleNothingPicked` | src/components/FacilityScrollSwitcher.tsx:75-88 | with no intersecting entry of positive ratio nothing is picked |
| `SectionTracker.MostVisible` | src/components/FacilityScrollSwitcher.tsx:75-88 | the loop computes the walk: a maximum that bounds all intersecting ratios and is attained by the first greatest entry |
| `SectionTracker.Activation` | src/components/ScrollImageSwitcher.tsx:101-103 | a batch activates an id exactly when the maximum reaches the threshold and the chosen id is non-empty |
| `SectionTracker.ActivationMonotone` | src/components/FacilityScrollSwitcher.tsx:90 | what a threshold activates, any lower threshold activates identically |
| `SectionTracker.SetSectionRef` | src/components/FacilityScrollSwitcher.tsx:26-42 | an element registers the id with it; `null` removes the id; every other id is untouched |
| `SectionTracker.ReRegistration` | src/components/ScrollImageSwitcher.tsx:36-53 | registering an id twice keeps only the second element; unregistering undoes any registration |
| `FacilitySwitcher.IndexOf` | src/components/FacilityScrollSwitcher.tsx:94-96 | `findIndex`: the first position of the id, or -1 exactly when it is absent |
| `FacilitySwitcher.Initial` | src/components/FacilityScrollSwitcher.tsx:18-21 | the first section's id (or "" with none) and progress 0 |
| `FacilitySwitcher.Progress` | src/components/FacilityScrollSwitcher.tsx:94-98 | for a listed id in (0, 100], and 100 iff it is found at the last position; 0 for an unlisted id |
| `FacilitySwitcher.ProgressAt` | src/components/FacilityScrollSwitcher.tsx:94-98 | with distinct ids the section at position i reads `(i + 1) / count * 100` |
| `FacilitySwitcher.FullProgressOnlyAtLast` | src/components/FacilityScrollSwitcher.tsx:97 | with distinct ids progress is 100 exactly on the last section |
| `FacilitySwitcher.ProgressOfMiddleOfThree` | src/components/FacilityScrollSwitcher.tsx:97 | sections A, B, C with B active give 200/3 |
| `FacilitySwitcher.ApplyBatch` | src/components/FacilityScrollSwitcher.tsx:90-99 | below 0.2 or without an id the state is unchanged; otherwise the chosen id becomes active with its progress |
| `FacilitySwitcher.BelowThresholdKeepsState` | src/components/FacilityScrollSwitcher.tsx:90 | a batch whose intersecting ratios all stay below 0.2 changes nothing |
| `FacilitySwitcher.RunProgress` | src/components/FacilityScrollSwitcher.tsx:18-99 | over any batches progress stays in [0, 100], and after the first activation it always matches the active section |
| `FacilitySwitcher.InitialProgressLagsFormula` | src/components/FacilityScrollSwitcher.tsx:18-21 | on mount the `progress` state is less than the formula gives for the active first section |
| `FacilitySwitcher.CounterLabel` | src/components/FacilityScrollSwitcher.tsx:285-286 | below 100 sections the counter is seven characters with " / " in the middle |
| `FacilitySwitcher.CounterLabelReadsBack` | src/components/FacilityScrollSwitcher.tsx:114 | below 100 sections, the counter's halves read back as `activeIndex + 1` and the section count |
| `ImageSwitcher.InitialActive` | src/components/ScrollImageSwitcher.tsx:29-31 | the first id, or "" with no sections |
| `ImageSwitcher.ApplyBatch` | src/components/ScrollImageSwitcher.tsx:101-103 | below 0.3 or without an id the active section stays; otherwise the chosen, non-empty id becomes active |
| `ImageSwitcher.StricterThanFacility` | src/components/ScrollImageSwitcher.tsx:101 | any id this switcher activates, the facility switcher's 0.2 threshold activates on the same batch |
| `ImageSwitcher.RunActiveOrigin` | src/components/ScrollImageSwitcher.tsx:83-103 | after any batches the active section is the initial one or an id carried by an intersecting entry |
| `ImageSwitcher.Reobserve` | src/components/ScrollImageSwitcher.tsx:117-127 | the ref map is unchanged and every registered element ends up observed |
| `ImageSwitcher.MobileLabel` | src/components/ScrollImageSwitcher.tsx:323-324 | the value number when present and non-empty, else `index + 1` padded to two digits (exactly two below 100), reading back as `index + 1` |
| `Hero.NextSlide` | src/components/Hero.tsx:13-15 | from a slide in 1..5 the result is in 1..5 and is the cyclic successor `n mod 5 + 1` |
| `Hero.PrevSlide` | src/components/Hero.tsx:17-19 | from a slide in 1..5 the result is in 1..5 and is the cyclic predecessor |
| `Hero.PrevNextInverse` | src/components/Hero.tsx:13-19 | previous undoes next and next undoes previous |
| `Hero.AdvanceIsRotation` | src/components/Hero.tsx:13-15 | `k` presses of next rotate the slide `k` places round the cycle of five |
| `Hero.FullCycle` | src/components/Hero.tsx:10-15 | five presses of next return to the starting slide |
| `Hero.BarWidth` | src/components/Hero.tsx:68 | the width is in [20, 100] for a valid slide, 100 exactly at slide 5, and 40 at the initial slide 2 |
| `Hero.BarGrowsWithNext` | src/components/Hero.tsx:68 | each next press below the last slide widens the bar by 20 |
| `Accordion.Toggle` | src/components/FAQ.tsx:103-111 | the toggled item flips between open and closed; every other item keeps its state |
| `Accordion.ToggleTwice` | src/components/FacilityRules.tsx:12-20 | toggling the same item twice restores the set |
| `Accordion.ToggleAllParity` | src/components/FAQ.tsx:103-111 | after any clicks an item is open iff its initial state differs from the parity of its clicks |
| `Accordion.FaqOpenAfterClicks` | src/components/FAQ.tsx:101-111 | starting with nothing open, a question is open iff clicked an odd number of times |
| `Accordion.RulesOpenAfterClicks` | src/components/FacilityRules.tsx:10-20 | starting with section 0 open, section 0 is open iff clicked an even number of times, any other iff an odd number |

## Left out

- JSX rendering, CSS classes, framer-motion variants and animation timings are presentation only.
- The real `fetch`, `NextResponse`, `URLSearchParams`, `process.env`, `revalidate` caching and `console.error` are not modelled. The route's upstream is a function from URL to reply, the environment is an `Env` value, and the hook's fetch result is a `FetchOutcome`.
- Async interleaving is reduced to atomic start and completion transitions, applied in any order the `Event` sequence gives. A `Completed` event names its own mode (append or replace) instead of inheriting the mode of the fetch it answers, so `FeedHook.RunConsistent` covers every pairing, including ones the hook cannot produce.
- The intersection observer itself is not modelled: its threshold lists, `rootMargin`, `observe`, `unobserve` and `disconnect`. A callback is the sequence of entries it receives. The `observe`/`unobserve` calls inside `setSectionRef` are not modelled either; only the map is.
- The section indicator buttons' `scrollIntoView` is a browser call.
- The image switcher's title split (desktop and mobile headings) is not modelled. It uses the same `split` on a real newline as the Value block's fallback.
- Date formatting with `toLocaleDateString` is a locale-dependent library call.
- The post card's image loading and error flags are not modelled; they are presentation state.
- The hero's "0n - 05" text label is not modelled.
- The facility switcher has no re-observe effect. Its ref callbacks run in the first commit, before the effect at src/components/FacilityScrollSwitcher.tsx:72-110 creates the observer, so its sections are not observed until a later render re-runs them. The model's batches can be any sequence, including none, so this start-up gap is not visible in it.
- Unmounting is not modelled: the observer's `disconnect` and fetch replies that arrive after the page is gone are React lifecycle matters.
- The smooth-scroll hook (third-party library), the scroll-threshold hook (wall clock and timers) and the header's menu flag are not part of this model.
- Static pages, layouts, metadata, constants and purely presentational components are not part of this model.
- FacilitySwitcher.Progress: for an empty section list the source computes 0/0, which is NaN. The model gives 0, because a real has no NaN.
- Common.CountOrZero: a like or comment count of NaN would also fall back to 0 in the source. Counts here are integers, so NaN is not modelled.
- FeedView.Truncate: lengths are counted in characters, while JavaScript counts UTF-16 code units. Captions with characters outside the basic plane can therefore be cut at a different place.
- A `media_type` outside the three documented values is not modelled.
- Ratios and progress are exact reals; floating-point rounding is not modelled.

=== FILE: accordion.dfy ===
/** The two accordions (frequently asked questions and facility rules): the set
    of open items, and the toggle that flips one item's membership. */
module Accordion {

  /** No question is open on mount. */
  const FaqInitial: set<int> := {}
  /** Only the first rule section is open on mount. */
  const RulesInitial: set<int> := {0}

  /** An item renders open exactly when it is in the set. */
  predicate IsOpen(open: set<int>, item: int) {
    item in open
  }

  /** `toggleItem` / `toggleSection`: remove the item when open, add it otherwise. */
  function Toggle(open: set<int>, item: int): (r: set<int>)
    ensures IsOpen(r, item) <==> !IsOpen(open, item)
    ensures forall other :: other != item ==> (IsOpen(r, other) <==> IsOpen(open, other))
  {
    if item in open then open - {item} else open + {item}
  }

  /** Toggling the same item twice restores the set. */
  lemma ToggleTwice(open: set<int>, item: int)
    ensures Toggle(Toggle(open, item), item) == open
  {
  }

  /** The set after a sequence of clicks, in order. */
  function ToggleAll(open: set<int>, clicks: seq<int>): set<int>
    decreases |clicks|
  {
    if |clicks| == 0 then open
    else Toggle(ToggleAll(open, clicks[..|clicks| - 1]), clicks[|clicks| - 1])
  }

  function Occurrences(clicks: seq<int>, item: int): nat
    decreases |clicks|
  {
    if |clicks| == 0 then 0
    else Occurrences(clicks[..|clicks| - 1], item) + (if clicks[|clicks| - 1] == item then 1 else 0)
  }

  /** After any clicks an item is open exactly when it started open and was
      clicked an even number of times, or started closed and was clicked an odd
      number of times. */
  lemma {:induction false} ToggleAllParity(open: set<int>, clicks: seq<int>, item: int)
    ensures IsOpen(ToggleAll(open, clicks), item) <==> (IsOpen(open, item) != (Occurrences(clicks, item) % 2 == 1))
    decreases |clicks|
  {
    if |clicks| > 0 {
      ToggleAllParity(open, clicks[..|clicks| - 1], item);
    }
  }

  /** A question is open exactly when it has been clicked an odd number of times. */
  lemma FaqOpenAfterClicks(clicks: seq<int>, id: int)
    ensures IsOpen(ToggleAll(FaqInitial, clicks), id) <==> Occurrences(clicks, id) % 2 == 1
  {
    ToggleAllParity(FaqInitial, clicks, id);
  }

  /** The first rule section is open exactly after an even number of clicks on
      it; any other section exactly after an odd number. */
  lemma RulesOpenAfterClicks(clicks: seq<int>, index: int)
    ensures index == 0 ==> (IsOpen(ToggleAll(RulesInitial, clicks), index) <==> Occurrences(clicks, index) % 2 == 0)
    ensures index != 0 ==> (IsOpen(ToggleAll(RulesInitial, clicks), index) <==> Occurrences(clicks, index) % 2 == 1)
  {
    ToggleAllParity(RulesInitial, clicks, index);
  }
}

=== FILE: common.dfy ===
/** Small shared vocabulary: optional values (JavaScript `null` / `undefined`),
    JavaScript truthiness of strings and numbers, and the decimal rendering that
    `String(n).padStart(2, "0")` performs. */
module Common {

  /** A value that may be absent (`null` or `undefined` in the source). */
  datatype Option<+T> = None | Some(value: T)

  /** A string is truthy in JavaScript exactly when it is non-empty. */
  predicate Truthy(s: string) {
    |s| > 0
  }

  /** An optional string that is present and non-empty (`if (x)` on `string | null`). */
  predicate PresentText(s: Option<string>) {
    s.Some? && Truthy(s.value)
  }

  /** `x || fallback` for an optional string. */
  function TextOr(s: Option<string>, fallback: string): (r: string)
    ensures PresentText(s) ==> r == s.value
    ensures !PresentText(s) ==> r == fallback
  {
    if s.Some? && |s.value| > 0 then s.value else fallback
  }

  /** `x || 0` for an optional count: absent and zero both give zero. */
  function CountOrZero(n: Option<int>): (r: int)
    ensures n.Some? ==> r == n.value
    ensures n.None? ==> r == 0
  {
    match n
    case Some(v) => v
    case None => 0
  }

  predicate IsDigit(c: char) {
    '0' <= c <= '9'
  }

  predicate AllDigits(s: string) {
    forall i :: 0 <= i < |s| ==> IsDigit(s[i])
  }

  function DigitChar(d: nat): (c: char)
    requires d < 10
    ensures IsDigit(c)
    ensures (c as int) - ('0' as int) == d
  {
    (('0' as int) + d) as char
  }

  /** The decimal digits of `n`, most significant first, with no leading zero
      (what `String(n)` gives for a non-negative integer). */
  function Decimal(n: nat): (r: string)
    ensures |r| >= 1
    ensures AllDigits(r)
    ensures n >= 10 ==> |r| >= 2
    ensures n < 10 <==> |r| == 1
    ensures |r| == 1 || r[0] != '0'
    decreases n
  {
    if n < 10 then [DigitChar(n)] else Decimal(n / 10) + [DigitChar(n % 10)]
  }

  /** `String(i)` for any integer. */
  function IntText(i: int): (r: string)
    ensures i >= 0 ==> r == Decimal(i)
    ensures i < 0 ==> r == "-" + Decimal(-i)
  {
    if i < 0 then "-" + Decimal(-i) else Decimal(i)
  }

  /** Reads a string of decimal digits back as a number (leading zeros allowed). */
  function DigitsValue(s: string): nat
    requires AllDigits(s)
  {
    if |s| == 0 then 0
    else DigitsValue(s[..|s| - 1]) * 10 + ((s[|s| - 1] as int) - ('0' as int))
  }

  lemma {:induction false} DecimalRoundTrip(n: nat)
    ensures DigitsValue(Decimal(n)) == n
    decreases n
  {
    if n >= 10 {
      var d := Decimal(n);
      DecimalRoundTrip(n / 10);
      assert d[..|d| - 1] == Decimal(n / 10);
    }
  }

  /** A leading zero does not change the value of a digit string. */
  lemma {:induction false} LeadingZeroValue(s: string)
    requires AllDigits(s)
    ensures AllDigits("0" + s)
    ensures DigitsValue("0" + s) == DigitsValue(s)
    decreases |s|
  {
    if |s| > 0 {
      var t := "0" + s;
      assert t[..|t| - 1] == "0" + s[..|s| - 1];
      LeadingZeroValue(s[..|s| - 1]);
    }
  }

  /** `s.padStart(width, fill)` for a one-character fill. */
  function PadStart(s: string, width: nat, fill: char): (r: string)
    ensures |s| >= width ==> r == s
    ensures |s| < width ==> |r| == width
    ensures s <= r[|r| - |s|..] && |r| >= |s|
    ensures forall i :: 0 <= i < |r| - |s| ==> r[i] == fill
    decreases width - |s|
  {
    if |s| >= width then s else PadStart([fill] + s, width, fill)
  }

  /** `String(n).padStart(2, "0")`: at least two digits, same value. */
  function Pad2(n: nat): (r: string)
    ensures |r| >= 2
    ensures AllDigits(r)
    ensures n < 100 ==> |r| == 2
    ensures n >= 10 ==> r == Decimal(n)
  {
    PadStart(Decimal(n), 2, '0')
  }

  /** The padded label still reads back as the number it was made from. */
  lemma Pad2RoundTrip(n: nat)
    ensures DigitsValue(Pad2(n)) == n
  {
    DecimalRoundTrip(n);
    if n < 10 {
      assert Pad2(n) == "0" + Decimal(n);
      LeadingZeroValue(Decimal(n));
    }
  }
}

=== FILE: facility_switcher.dfy ===
/** The facility page's scroll switcher: it activates a section when a batch's
    best intersecting ratio reaches 0.2, and derives a progress percentage and
    a "NN / NN" counter from the active section's place in the section list. */
module FacilitySwitcher {
  import opened Common
  import opened SectionTracker

  const ActivationThreshold: real := 0.2

  datatype SwitcherState = SwitcherState(activeSection: string, progress: real)

  /** `findIndex` by id: the first position holding `id`, or -1. */
  function IndexOf(ids: seq<string>, id: string): (r: int)
    ensures -1 <= r < |ids|
    ensures r == -1 <==> id !in ids
    ensures r >= 0 ==> ids[r] == id && forall j :: 0 <= j < r ==> ids[j] != id
    decreases |ids|
  {
    if |ids| == 0 then -1
    else if ids[0] == id then 0
    else
      var rest := IndexOf(ids[1..], id);
      if rest == -1 then -1 else rest + 1
  }

  /** The state on mount: the first section (or "" with no sections) and no progress. */
  function Initial(ids: seq<string>): (s: SwitcherState)
    ensures s.progress == 0.0
    ensures |ids| > 0 ==> s.activeSection == ids[0]
    ensures |ids| == 0 ==> s.activeSection == ""
  {
    SwitcherState(if |ids| > 0 then ids[0] else "", 0.0)
  }

  /** `(index + 1) / sections.length * 100` for the section `id`. */
  function Progress(ids: seq<string>, id: string): (r: real)
    ensures id in ids ==> 0.0 < r <= 100.0
    ensures id in ids ==> (r == 100.0 <==> IndexOf(ids, id) == |ids| - 1)
    ensures id !in ids ==> r == 0.0
  {
    if |ids| == 0 then 0.0
    else ((IndexOf(ids, id) + 1) as real / |ids| as real) * 100.0
  }

  /** Ids listed at most once each. */
  ghost predicate Distinct(ids: seq<string>) {
    forall i, j :: 0 <= i < j < |ids| ==> ids[i] != ids[j]
  }

  /** With distinct ids, progress reads 100 exactly on the last section. */
  lemma FullProgressOnlyAtLast(ids: seq<string>, id: string)
    requires Distinct(ids) && id in ids
    ensures Progress(ids, id) == 100.0 <==> id == ids[|ids| - 1]
  {
  }

  /** With distinct ids, the section at position `i` reads `(i + 1) / count * 100`. */
  lemma ProgressAt(ids: seq<string>, i: int)
    requires Distinct(ids) && 0 <= i < |ids|
    ensures Progress(ids, ids[i]) == ((i + 1) as real / |ids| as real) * 100.0
  {
  }

  /** Three sections, the middle one active: two thirds of the way. */
  lemma ProgressOfMiddleOfThree()
    ensures Progress(["A", "B", "C"], "B") == 200.0 / 3.0
  {
  }

  /** The observer callback: activate the chosen section at or above the
      threshold, otherwise keep the state unchanged. */
  function ApplyBatch(ids: seq<string>, s: SwitcherState, entries: seq<Entry>): (t: SwitcherState)
    ensures Activation(entries, ActivationThreshold).None? ==> t == s
    ensures Activation(entries, ActivationThreshold).Some? ==>
      && t.activeSection == Activation(entries, ActivationThreshold).value
      && t.progress == Progress(ids, t.activeSection)
  {
    match Activation(entries, ActivationThreshold)
    case None => s
    case Some(id) => SwitcherState(id, Progress(ids, id))
  }

  /** A batch whose best intersecting ratio is below the threshold changes nothing. */
  lemma BelowThresholdKeepsState(ids: seq<string>, s: SwitcherState, entries: seq<Entry>, best: real)
    requires best < ActivationThreshold && Bounded(entries, best)
    ensures ApplyBatch(ids, s, entries) == s
  {
    ScanMaximum(entries);
    if Scan(entries).maxRatio > 0.0 {
      var k :| IsWinner(entries, k) && entries[k].ratio == Scan(entries).maxRatio;
    }
  }

  /** The state after mounting and handling the batches in order. */
  function Run(ids: seq<string>, batches: seq<seq<Entry>>): SwitcherState
    decreases |batches|
  {
    if |batches| == 0 then Initial(ids)
    else ApplyBatch(ids, Run(ids, batches[..|batches| - 1]), batches[|batches| - 1])
  }

  /** Progress always lies in [0, 100]; it is 0 until the first activation and
      afterwards always agrees with the active section's place in the list. */
  lemma {:induction false} RunProgress(ids: seq<string>, batches: seq<seq<Entry>>)
    ensures 0.0 <= Run(ids, batches).progress <= 100.0
    ensures Run(ids, batches) == Initial(ids)
      || Run(ids, batches).progress == Progress(ids, Run(ids, batches).activeSection)
    decreases |batches|
  {
    if |batches| > 0 {
      var before := Run(ids, batches[..|batches| - 1]);
      RunProgress(ids, batches[..|batches| - 1]);
      var batch := batches[|batches| - 1];
      if Activation(batch, ActivationThreshold).Some? {
        var id := Activation(batch, ActivationThreshold).value;
        assert Run(ids, batches) == SwitcherState(id, Progress(ids, id));
      }
    }
  }

  /** On mount the first section is active while the `progress` state is still 0, which
      is not the value the progress formula gives for the first section. */
  lemma InitialProgressLagsFormula(ids: seq<string>)
    requires |ids| > 0
    ensures Progress(ids, Initial(ids).activeSection) > Initial(ids).progress
  {
  }

  /** The overlay counter: the 1-based position of the active section (0 when
      absent) and the section count, both padded to two digits. */
  function CounterLabel(ids: seq<string>, active: string): (text: string)
    ensures |ids| < 100 ==> |text| == 7 && text[2..5] == " / "
  {
    Pad2(IndexOf(ids, active) + 1) + " / " + Pad2(|ids|)
  }

  /** The two halves of a counter whose first number has two digits. */
  lemma CounterHalves(pos: string, count: string)
    requires |pos| == 2
    ensures (pos + " / " + count)[..2] == pos
    ensures (pos + " / " + count)[5..] == count
  {
  }

  /** The counter reads back as the active position and the section count. */
  lemma CounterLabelReadsBack(ids: seq<string>, active: string)
    requires |ids| < 100
    ensures AllDigits(CounterLabel(ids, active)[..2]) && AllDigits(CounterLabel(ids, active)[5..])
    ensures DigitsValue(CounterLabel(ids, active)[..2]) == IndexOf(ids, active) + 1
    ensures DigitsValue(CounterLabel(ids, active)[5..]) == |ids|
  {
    var n := IndexOf(ids, active) + 1;
    var pos := Pad2(n);
    var count := Pad2(|ids|);
    CounterHalves(pos, count);
    assert CounterLabel(ids, active) == pos + " / " + count;
    Pad2RoundTrip(n);
    Pad2RoundTrip(|ids|);
  }
}

=== FILE: feed_hook.dfy ===
/** The paginated feed hook. Its state is the six-field record the hook keeps;
    a fetch is two atomic transitions, its start (flags up, error cleared) and
    its completion (append or replace, or record the error; flags down).
    The network reply is an input of the completion. There is no request
    generation counter, as in the hook itself. */
module FeedHook {
  import opened Common
  import opened FeedTypes
  import FeedRoute

  datatype FeedState = FeedState(
    posts: seq<Post>,
    loading: bool,
    loadingMore: bool,
    error: Option<string>,
    nextCursor: Option<string>,
    hasMore: bool)

  /** How a fetch ended, as the hook observes it. */
  datatype FetchOutcome =
    /** `response.ok`, with the parsed page. */
    | Fetched(page: NewsResponse)
    /** Not ok; the `error` field of the JSON error body, if any. */
    | NotOk(errorField: Option<string>)
    /** Something threw: `Some(m)` for an `Error` with message `m`, `None` for any other value. */
    | Threw(message: Option<string>)

  /** The query string of a request, as ordered (name, value) pairs. */
  type Params = FeedRoute.QueryString

  /** A state change together with the request it issues, if any, and whether
      the reply to that request is appended to the posts (`fetchPosts`'s
      `isLoadMore` argument) rather than replacing them. */
  datatype Step = Step(state: FeedState, request: Option<Params>, appends: bool)

  const FetchFailedText: string := "データの取得に失敗しました"
  const UnknownErrorText: string := "エラーが発生しました"
  const DefaultPageSize: int := 10

  /** The state before anything has been fetched. */
  function Initial(): (s: FeedState)
    ensures s.posts == [] && s.loading && !s.loadingMore
    ensures s.error.None? && s.nextCursor.None? && s.hasMore
  {
    FeedState([], true, false, None, None, true)
  }

  /** The query of one request: the page size, then the cursor as `after`
      when the cursor is present and non-empty. */
  function RequestParams(pageSize: int, cursor: Option<string>): (ps: Params)
    ensures |ps| >= 1 && ps[0] == ("limit", IntText(pageSize))
    ensures |ps| == 2 <==> PresentText(cursor)
    ensures |ps| <= 2
    ensures |ps| == 2 ==> ps[1] == ("after", cursor.value)
    ensures !PresentText(cursor) ==> ps == [("limit", IntText(pageSize))]
  {
    [("limit", IntText(pageSize))] + if PresentText(cursor) then [("after", cursor.value)] else []
  }

  /** The first transition of every fetch. */
  function StartFetch(s: FeedState, isLoadMore: bool): (t: FeedState)
    ensures t.error.None?
    ensures isLoadMore ==> t.loadingMore && t.loading == s.loading
    ensures !isLoadMore ==> t.loading && t.loadingMore == s.loadingMore
    ensures t.posts == s.posts && t.nextCursor == s.nextCursor && t.hasMore == s.hasMore
  {
    if isLoadMore then s.(loadingMore := true, error := None)
    else s.(loading := true, error := None)
  }

  /** The message recorded for a failed fetch. */
  function ErrorMessage(outcome: FetchOutcome): (m: string)
    requires !outcome.Fetched?
    ensures outcome.NotOk? ==> m == TextOr(outcome.errorField, FetchFailedText) && Truthy(m)
    ensures outcome.Threw? && outcome.message.Some? ==> m == outcome.message.value
    ensures outcome.Threw? && outcome.message.None? ==> m == UnknownErrorText
  {
    match outcome
    case NotOk(field) => TextOr(field, FetchFailedText)
    case Threw(message) => if message.Some? then message.value else UnknownErrorText
  }

  /** The second transition of every fetch. */
  function Complete(s: FeedState, isLoadMore: bool, outcome: FetchOutcome): (t: FeedState)
    ensures !t.loading && !t.loadingMore
    ensures outcome.Fetched? && isLoadMore ==> t.posts == s.posts + outcome.page.posts
    ensures outcome.Fetched? && !isLoadMore ==> t.posts == outcome.page.posts
    ensures outcome.Fetched? ==>
      && t.nextCursor == outcome.page.pagination.nextCursor
      && t.hasMore == outcome.page.pagination.hasNext
      && t.error == s.error
    ensures !outcome.Fetched? ==>
      && t.error == Some(ErrorMessage(outcome))
      && t.posts == s.posts && t.nextCursor == s.nextCursor && t.hasMore == s.hasMore
  {
    var after :=
      match outcome
      case Fetched(page) =>
        s.(posts := if isLoadMore then s.posts + page.posts else page.posts,
           nextCursor := page.pagination.nextCursor,
           hasMore := page.pagination.hasNext)
      case _ => s.(error := Some(ErrorMessage(outcome)));
    after.(loading := false, loadingMore := false)
  }

  /** Mounting the hook starts the first, replacing fetch without a cursor. */
  function Mount(pageSize: int): (st: Step)
    ensures st.state == Initial()
    ensures st.state.loading && st.state.posts == [] && st.state.error.None?
    ensures st.request == Some([("limit", IntText(pageSize))])
    ensures !st.appends
  {
    Step(StartFetch(Initial(), false), Some(RequestParams(pageSize, None)), false)
  }

  /** The guard under which `loadMore` returns without doing anything. */
  predicate LoadMoreBlocked(s: FeedState) {
    !s.hasMore || s.loadingMore || s.loading
  }

  /** `loadMore`: a no-op when blocked, otherwise an appending fetch from the
      stored cursor. */
  function LoadMore(s: FeedState, pageSize: int): (st: Step)
    ensures st.request.None? <==> LoadMoreBlocked(s)
    ensures LoadMoreBlocked(s) ==> st.state == s
    ensures !LoadMoreBlocked(s) ==>
      && st.state.loadingMore && !st.state.loading && st.state.error.None?
      && st.state.posts == s.posts
      && st.state.nextCursor == s.nextCursor && st.state.hasMore == s.hasMore
      && st.request == Some(RequestParams(pageSize, s.nextCursor))
      && st.appends
  {
    if LoadMoreBlocked(s) then Step(s, None, false)
    else Step(StartFetch(s, true), Some(RequestParams(pageSize, s.nextCursor)), true)
  }

  /** `refresh`: forget the cursor, assume there is more, and start a replacing
      fetch that sends no cursor. It is never blocked. */
  function Refresh(s: FeedState, pageSize: int): (st: Step)
    ensures st.state.nextCursor.None? && st.state.hasMore
    ensures st.state.loading && st.state.error.None?
    ensures st.state.posts == s.posts && st.state.loadingMore == s.loadingMore
    ensures st.request == Some([("limit", IntText(pageSize))])
    ensures !st.appends
  {
    Step(StartFetch(s.(nextCursor := None, hasMore := true), false), Some(RequestParams(pageSize, None)), false)
  }

  /** After a completed fetch, `loadMore` is available exactly when the last
      response (or the state before a failure) says there is more. */
  lemma LoadMoreAfterComplete(s: FeedState, isLoadMore: bool, outcome: FetchOutcome)
    ensures !LoadMoreBlocked(Complete(s, isLoadMore, outcome)) <==>
      (if outcome.Fetched? then outcome.page.pagination.hasNext else s.hasMore)
  {
  }

  function Page(posts: seq<Post>, next: Option<string>): NewsResponse {
    NewsResponse(posts, Pagination(next.Some?, next))
  }

  /** The append/replace scenario: a first page [a, b, c], a second page
      [d, e] appended by `loadMore`, then a `refresh` answered with [x, y]
      that replaces everything. */
  lemma AppendThenRefreshReplaces(a: Post, b: Post, c: Post, d: Post, e: Post, x: Post, y: Post)
    ensures
      var s0 := Complete(Mount(12).state, false, Fetched(Page([a, b, c], Some("p2"))));
      var s1 := LoadMore(s0, 12).state;
      var s2 := Complete(s1, true, Fetched(Page([d, e], None)));
      var s3 := Refresh(s2, 12).state;
      var s4 := Complete(s3, false, Fetched(Page([x, y], Some("q2"))));
      && s0.posts == [a, b, c]
      && s2.posts == [a, b, c, d, e] && !s2.hasMore
      && LoadMore(s2, 12).request.None?
      && s4.posts == [x, y] && s4.hasMore && s4.nextCursor == Some("q2")
  {
  }

  /** A failing `loadMore` keeps the loaded posts and records an error; a
      following successful `loadMore` clears the error and appends. */
  lemma FailedLoadMoreThenRetry(s: FeedState, pageSize: int, msg: string, page: NewsResponse)
    requires s.hasMore && !s.loading && !s.loadingMore
    ensures
      var failed := Complete(LoadMore(s, pageSize).state, true, Threw(Some(msg)));
      var retried := Complete(LoadMore(failed, pageSize).state, true, Fetched(page));
      && failed.posts == s.posts && failed.error == Some(msg)
      && !LoadMoreBlocked(failed)
      && retried.error.None? && retried.posts == s.posts + page.posts
  {
  }

  /** `refresh` issued while a `loadMore` is in flight raises both flags at
      once, and when the stale `loadMore` reply lands after the refresh reply
      it is appended to the refreshed posts: nothing discards it. */
  lemma StaleLoadMoreIsApplied(s: FeedState, pageSize: int, newPage: NewsResponse, stale: NewsResponse)
    requires !LoadMoreBlocked(s)
    ensures
      var during := Refresh(LoadMore(s, pageSize).state, pageSize).state;
      var refreshed := Complete(during, false, Fetched(newPage));
      var late := Complete(refreshed, true, Fetched(stale));
      && during.loading && during.loadingMore
      && late.posts == newPage.posts + stale.posts
  {
  }

  /** A failed refresh has already cleared the cursor and set `hasMore`, so
      `loadMore` stays available and asks for the first page again, which is
      then appended to the posts shown before the refresh. */
  lemma FailedRefreshReloadsFirstPage(s: FeedState, pageSize: int, failure: FetchOutcome, first: NewsResponse)
    requires !failure.Fetched?
    ensures
      var failed := Complete(Refresh(s, pageSize).state, false, failure);
      var more := LoadMore(failed, pageSize);
      && failed.posts == s.posts && failed.error.Some?
      && more.request == Some([("limit", IntText(pageSize))])
      && Complete(more.state, more.appends, Fetched(first)).posts == s.posts + first.posts
  {
  }

  /** Everything that can happen to the hook, in the order it happens. */
  datatype Event =
    | LoadMoreCalled
    | RefreshCalled
    | Completed(isLoadMore: bool, outcome: FetchOutcome)

  function Apply(s: FeedState, ev: Event, pageSize: int): FeedState {
    match ev
    case LoadMoreCalled => LoadMore(s, pageSize).state
    case RefreshCalled => Refresh(s, pageSize).state
    case Completed(isLoadMore, outcome) => Complete(s, isLoadMore, outcome)
  }

  /** The state after mounting and then handling `events` in order. */
  function Run(events: seq<Event>, pageSize: int): FeedState
    decreases |events|
  {
    if |events| == 0 then Mount(pageSize).state
    else Apply(Run(events[..|events| - 1], pageSize), events[|events| - 1], pageSize)
  }

  /** An error is only ever on display while nothing is loading, and every
      post in the state is well formed when every page the route delivered was. */
  predicate Consistent(s: FeedState) {
    && (s.error.Some? ==> !s.loading && !s.loadingMore)
    && FeedRoute.AllWellFormed(s.posts)
  }

  predicate PagesWellFormed(events: seq<Event>) {
    forall i :: 0 <= i < |events| && events[i].Completed? && events[i].outcome.Fetched? ==>
      FeedRoute.AllWellFormed(events[i].outcome.page.posts)
  }

  lemma ApplyKeepsConsistent(s: FeedState, ev: Event, pageSize: int)
    requires Consistent(s)
    requires ev.Completed? && ev.outcome.Fetched? ==> FeedRoute.AllWellFormed(ev.outcome.page.posts)
    ensures Consistent(Apply(s, ev, pageSize))
  {
    if ev.Completed? && ev.outcome.Fetched? && ev.isLoadMore {
      var t := Apply(s, ev, pageSize);
      assert t.posts == s.posts + ev.outcome.page.posts;
      forall i | 0 <= i < |t.posts|
        ensures FeedRoute.WellFormedPost(t.posts[i])
      {
        if i >= |s.posts| {
          assert t.posts[i] == ev.outcome.page.posts[i - |s.posts|];
        }
      }
    }
  }

  /** Every reachable state is consistent. */
  lemma {:induction false} RunConsistent(events: seq<Event>, pageSize: int)
    requires PagesWellFormed(events)
    ensures Consistent(Run(events, pageSize))
    decreases |events|
  {
    if |events| > 0 {
      var prefix := events[..|events| - 1];
      assert PagesWellFormed(prefix) by {
        forall i | 0 <= i < |prefix|
          ensures prefix[i] == events[i]
        {
        }
      }
      RunConsistent(prefix, pageSize);
      ApplyKeepsConsistent(Run(prefix, pageSize), events[|events| - 1], pageSize);
    }
  }

  /** The hook's request reaches the Graph API intact: the route forwards the
      hook's page size as `limit`, and the hook's cursor as `&after=` exactly
      when the hook sent one. */
  lemma RequestReachesUpstream(pageSize: int, cursor: Option<string>, env: FeedRoute.Env,
                               upstream: string -> FeedRoute.UpstreamReply)
    requires FeedRoute.Configured(env)
    ensures
      var q := FeedRoute.ReadQuery(RequestParams(pageSize, cursor));
      var base := FeedRoute.MediaUrl(env.accountId.value, env.accessToken.value, IntText(pageSize));
      && FeedRoute.LimitParam(q) == IntText(pageSize)
      && FeedRoute.AfterParam(q) == TextOr(cursor, "")
      && (PresentText(cursor) ==> FeedRoute.Get(q, env, upstream) == FeedRoute.Finish(upstream(base + "&after=" + cursor.value)))
      && (!PresentText(cursor) ==> FeedRoute.Get(q, env, upstream) == FeedRoute.Finish(upstream(base)))
  {
  }

  /** A page size left at its default asks for the same number of posts as
      the route's own default. */
  lemma DefaultsAgree()
    ensures IntText(DefaultPageSize) == FeedRoute.DefaultLimit
  {
  }

  /** Whatever error the route answers with, the hook sees a not-ok status and
      records the route's message verbatim, provided the upstream service
      only reports failures with non-2xx statuses. */
  lemma RouteErrorReachesHook(q: FeedRoute.Query, env: FeedRoute.Env, upstream: string -> FeedRoute.UpstreamReply)
    requires FeedRoute.HonestUpstream(upstream)
    requires FeedRoute.Get(q, env, upstream).body.ErrorBody?
    ensures !FeedRoute.IsOkStatus(FeedRoute.Get(q, env, upstream).status)
    ensures ErrorMessage(NotOk(Some(FeedRoute.Get(q, env, upstream).body.error))) == FeedRoute.Get(q, env, upstream).body.error
  {
  }
}

=== FILE: feed_route.dfy ===
/** The news proxy route: it reads `limit` and `after` from the query, refuses
    to run without credentials, forwards to the Graph API media endpoint, maps
    upstream failures to error bodies, and reshapes each media record into a
    `Post` with pagination information. The network is a parameter: the
    upstream service is a function from request URL to reply. */
module FeedRoute {
  import opened Common
  import opened FeedTypes

  /** One media record as the Graph API returns it; optional fields are `Option`. */
  datatype Media = Media(
    id: string,
    mediaType: MediaType,
    mediaUrl: string,
    permalink: string,
    caption: Option<string>,
    timestamp: string,
    likeCount: Option<int>,
    commentsCount: Option<int>,
    thumbnailUrl: Option<string>)

  datatype Cursors = Cursors(before: Option<string>, after: Option<string>)
  datatype Paging = Paging(cursors: Option<Cursors>, next: Option<string>)

  /** The upstream JSON body; `data` is absent when the body lacks the field. */
  datatype ApiResponse = ApiResponse(data: Option<seq<Media>>, paging: Option<Paging>)

  /** The query string values `searchParams.get` returns (`null` is `None`). */
  datatype Query = Query(limit: Option<string>, after: Option<string>)

  /** A query string as (name, value) pairs in the order they were sent. */
  type QueryString = seq<(string, string)>

  /** `searchParams.get(name)`: the first value sent under `name`, if any. */
  function Lookup(ps: QueryString, name: string): (r: Option<string>)
    ensures r.Some? ==>
      exists i :: 0 <= i < |ps| && ps[i] == (name, r.value) && forall j :: 0 <= j < i ==> ps[j].0 != name
    ensures r.None? <==> forall i :: 0 <= i < |ps| ==> ps[i].0 != name
    decreases |ps|
  {
    if |ps| == 0 then None
    else if ps[0].0 == name then Some(ps[0].1)
    else Lookup(ps[1..], name)
  }

  /** The two values the route reads from a query string. */
  function ReadQuery(ps: QueryString): (q: Query)
    ensures q.limit == Lookup(ps, "limit") && q.after == Lookup(ps, "after")
  {
    Query(Lookup(ps, "limit"), Lookup(ps, "after"))
  }

  /** The two configuration values read from the process environment. */
  datatype Env = Env(accessToken: Option<string>, accountId: Option<string>)

  /** What the upstream service does with one request. */
  datatype UpstreamReply =
    | UpstreamOk(payload: ApiResponse)
    | UpstreamNotOk(status: int, text: string)
    | UpstreamThrew

  /** `response.ok`: a status in the 2xx range. */
  predicate IsOkStatus(status: int) {
    200 <= status < 300
  }

  /** An upstream service whose not-ok replies really carry a non-2xx status. */
  ghost predicate HonestUpstream(upstream: string -> UpstreamReply) {
    forall url :: upstream(url).UpstreamNotOk? ==> !IsOkStatus(upstream(url).status)
  }

  datatype Body = ErrorBody(error: string) | NewsBody(news: NewsResponse)
  datatype Response = Response(status: int, body: Body)

  const ConfigError: string := "Instagram APIの設定が不完全です"
  const UpstreamError: string := "Instagram APIからのデータ取得に失敗しました"
  const ServerError: string := "サーバーエラーが発生しました"
  const DefaultLimit: string := "10"
  const BaseUrl: string := "https://graph.instagram.com"
  const Fields: string :=
    "id,media_type,media_url,permalink,caption,timestamp,like_count,comments_count,thumbnail_url"
  const StatusOk: int := 200
  const StatusServerError: int := 500

  /** The page size forwarded upstream: the query's `limit`, or "10" when it is missing or empty. */
  function LimitParam(q: Query): (r: string)
    ensures Truthy(r)
    ensures PresentText(q.limit) ==> r == q.limit.value
    ensures !PresentText(q.limit) ==> r == DefaultLimit
  {
    TextOr(q.limit, DefaultLimit)
  }

  /** The cursor forwarded upstream: the query's `after`, or "" when missing. */
  function AfterParam(q: Query): (r: string)
    ensures q.after.Some? ==> r == q.after.value
    ensures q.after.None? ==> r == ""
  {
    TextOr(q.after, "")
  }

  predicate Configured(env: Env) {
    PresentText(env.accessToken) && PresentText(env.accountId)
  }

  /** The Graph API request URL without the optional cursor. */
  function MediaUrl(accountId: string, token: string, limit: string): string {
    BaseUrl + "/" + accountId + "/media?fields=" + Fields + "&limit=" + limit + "&access_token=" + token
  }

  /** The Graph API request URL: the cursor is appended only when non-empty. */
  function UpstreamUrl(accountId: string, token: string, limit: string, after: string): (url: string)
    ensures MediaUrl(accountId, token, limit) <= url
    ensures |url| > |MediaUrl(accountId, token, limit)| <==> Truthy(after)
    ensures Truthy(after) ==> url[|MediaUrl(accountId, token, limit)|..] == "&after=" + after
  {
    var base := MediaUrl(accountId, token, limit);
    if Truthy(after) then base + "&after=" + after else base
  }

  /** Reshapes one upstream media record into a post. */
  function FormatPost(m: Media): (p: Post)
    ensures p.id == m.id && p.permalink == m.permalink && p.timestamp == m.timestamp
    ensures p.kind == m.mediaType && p.imageUrl == m.mediaUrl
    ensures p.videoUrl.Some? <==> m.mediaType == Video
    ensures p.videoUrl.Some? ==> p.videoUrl.value == m.mediaUrl
    ensures PresentText(m.thumbnailUrl) ==> p.thumbnailUrl == m.thumbnailUrl.value
    ensures !PresentText(m.thumbnailUrl) ==> p.thumbnailUrl == m.mediaUrl
    ensures m.caption.Some? ==> p.caption == m.caption.value
    ensures m.caption.None? ==> p.caption == ""
    ensures p.likes == (if m.likeCount.Some? then m.likeCount.value else 0)
    ensures p.comments == (if m.commentsCount.Some? then m.commentsCount.value else 0)
    ensures p.isVideo <==> m.mediaType == Video
    ensures p.isCarousel <==> m.mediaType == CarouselAlbum
  {
    Post(
      id := m.id,
      kind := m.mediaType,
      imageUrl := m.mediaUrl,
      videoUrl := if m.mediaType == Video then Some(m.mediaUrl) else None,
      thumbnailUrl := TextOr(m.thumbnailUrl, m.mediaUrl),
      permalink := m.permalink,
      caption := TextOr(m.caption, ""),
      timestamp := m.timestamp,
      likes := CountOrZero(m.likeCount),
      comments := CountOrZero(m.commentsCount),
      isVideo := m.mediaType == Video,
      isCarousel := m.mediaType == CarouselAlbum)
  }

  /** The consistency every formatted post has: the flags agree with the type,
      and a video URL is present exactly for videos and equals the media URL. */
  predicate WellFormedPost(p: Post) {
    && (p.isVideo <==> p.kind == Video)
    && (p.isCarousel <==> p.kind == CarouselAlbum)
    && !(p.isVideo && p.isCarousel)
    && (p.videoUrl.Some? <==> p.isVideo)
    && (p.videoUrl.Some? ==> p.videoUrl.value == p.imageUrl)
  }

  predicate AllWellFormed(posts: seq<Post>) {
    forall i :: 0 <= i < |posts| ==> WellFormedPost(posts[i])
  }

  /** Reshapes a list of media records, one post per record, in order. */
  function FormatPosts(data: seq<Media>): (posts: seq<Post>)
    ensures |posts| == |data|
    ensures forall i :: 0 <= i < |data| ==> posts[i] == FormatPost(data[i])
    ensures AllWellFormed(posts)
  {
    seq(|data|, i requires 0 <= i < |data| => FormatPost(data[i]))
  }

  /** Pagination: there is a next page exactly when `paging.next` is a non-empty
      string; the cursor is `paging.cursors.after` when non-empty. */
  function FormatPagination(paging: Option<Paging>): (r: Pagination)
    ensures r.hasNext <==> paging.Some? && PresentText(paging.value.next)
    ensures r.nextCursor.Some? <==>
      paging.Some? && paging.value.cursors.Some? && PresentText(paging.value.cursors.value.after)
    ensures r.nextCursor.Some? ==>
      r.nextCursor.value == paging.value.cursors.value.after.value && Truthy(r.nextCursor.value)
  {
    match paging
    case None => Pagination(false, None)
    case Some(pg) =>
      var cursor :=
        match pg.cursors
        case Some(c) => if PresentText(c.after) then Some(c.after.value) else None
        case None => None;
      Pagination(PresentText(pg.next), cursor)
  }

  /** Turns the upstream reply into the route's response. */
  function Finish(reply: UpstreamReply): (r: Response)
    ensures reply.UpstreamNotOk? ==> r == Response(reply.status, ErrorBody(UpstreamError))
    ensures reply.UpstreamThrew? ==> r == Response(StatusServerError, ErrorBody(ServerError))
    ensures reply.UpstreamOk? && reply.payload.data.None? ==> r == Response(StatusServerError, ErrorBody(ServerError))
    ensures r.body.ErrorBody? && !reply.UpstreamNotOk? ==> !IsOkStatus(r.status)
    ensures r.body.NewsBody? <==> reply.UpstreamOk? && reply.payload.data.Some?
    ensures r.body.NewsBody? ==>
      && r.status == StatusOk
      && r.body.news.posts == FormatPosts(reply.payload.data.value)
      && r.body.news.pagination == FormatPagination(reply.payload.paging)
    ensures r.body.ErrorBody? ==> Truthy(r.body.error)
  {
    match reply
    case UpstreamNotOk(status, _) => Response(status, ErrorBody(UpstreamError))
    case UpstreamThrew => Response(StatusServerError, ErrorBody(ServerError))
    case UpstreamOk(payload) =>
      match payload.data
      // `data.data.map` on a missing field throws; the catch answers 500.
      case None => Response(StatusServerError, ErrorBody(ServerError))
      case Some(media) =>
        Response(StatusOk, NewsBody(NewsResponse(FormatPosts(media), FormatPagination(payload.paging))))
  }

  /** The whole GET handler. `upstream` answers each URL the route requests. */
  function Get(q: Query, env: Env, upstream: string -> UpstreamReply): (r: Response)
    ensures !Configured(env) ==> r == Response(StatusServerError, ErrorBody(ConfigError))
    ensures Configured(env) ==>
      r == Finish(upstream(UpstreamUrl(env.accountId.value, env.accessToken.value, LimitParam(q), AfterParam(q))))
  {
    if !Configured(env) then Response(StatusServerError, ErrorBody(ConfigError))
    else
      var url := UpstreamUrl(env.accountId.value, env.accessToken.value, LimitParam(q), AfterParam(q));
      Finish(upstream(url))
  }

  /** Without credentials the upstream service is never consulted: any two
      upstream behaviours give the same answer. */
  lemma UnconfiguredIgnoresUpstream(q: Query, env: Env, u1: string -> UpstreamReply, u2: string -> UpstreamReply)
    requires !Configured(env)
    ensures Get(q, env, u1) == Get(q, env, u2)
    ensures Get(q, env, u1).status == StatusServerError
  {
  }

  /** Every error the route can answer with carries a non-empty message, and
      every success carries well-formed posts. */
  lemma GetAnswerShape(q: Query, env: Env, upstream: string -> UpstreamReply)
    ensures Get(q, env, upstream).body.ErrorBody? ==> Truthy(Get(q, env, upstream).body.error)
    ensures Get(q, env, upstream).body.NewsBody? ==>
      Get(q, env, upstream).status == StatusOk && AllWellFormed(Get(q, env, upstream).body.news.posts)
  {
  }
}

=== FILE: feed_types.dfy ===
/** The post and page shapes exchanged between the news proxy route and the
    client hook (the `InstagramPost` / `InstagramNewsResponse` interfaces). */
module FeedTypes {
  import opened Common

  datatype MediaType = Image | Video | CarouselAlbum

  /** One post as the proxy hands it to the browser. */
  datatype Post = Post(
    id: string,
    kind: MediaType,
    imageUrl: string,
    videoUrl: Option<string>,
    thumbnailUrl: string,
    permalink: string,
    caption: string,
    timestamp: string,
    likes: int,
    comments: int,
    isVideo: bool,
    isCarousel: bool)

  datatype Pagination = Pagination(hasNext: bool, nextCursor: Option<string>)

  /** A page of posts: the body of a successful proxy response. */
  datatype NewsResponse = NewsResponse(posts: seq<Post>, pagination: Pagination)
}

=== FILE: feed_view.dfy ===
/** The news page: caption truncation, the image alt text, and which of its
    views the page shows for a given hook state. */
module FeedView {
  import opened Common
  import opened FeedHook

  const DefaultCaptionLength: int := 150
  const AltCaptionLength: int := 50
  const Ellipsis: string := "..."
  const AltPlaceholder: string := "Instagram投稿"
  /** The page size the news page asks the hook for. */
  const NewsPageSize: int := 12

  /** `truncateCaption(caption, maxLength)`: unchanged when short enough,
      otherwise the first `maxLength` characters followed by an ellipsis. A
      negative `maxLength` keeps no characters, as `substring` clamps it to 0. */
  function Truncate(caption: string, maxLength: int): (r: string)
    ensures |caption| <= maxLength ==> r == caption
    ensures |caption| > maxLength ==>
      && |r| == (if maxLength < 0 then 0 else maxLength) + |Ellipsis|
      && r[..|r| - |Ellipsis|] <= caption
      && r[|r| - |Ellipsis|..] == Ellipsis
  {
    if |caption| <= maxLength then caption
    else
      var keep := if maxLength < 0 then 0 else maxLength;
      caption[..keep] + Ellipsis
  }

  /** Truncating an already truncated caption changes nothing. */
  lemma TruncateIdempotent(caption: string, maxLength: nat)
    ensures Truncate(Truncate(caption, maxLength), maxLength) == Truncate(caption, maxLength)
  {
  }

  /** A truncated caption is never longer than the original or the limit plus the ellipsis. */
  lemma TruncateBound(caption: string, maxLength: nat)
    ensures |Truncate(caption, maxLength)| <= maxLength + |Ellipsis|
            || Truncate(caption, maxLength) == caption
    ensures |Truncate(caption, maxLength)| <= |caption| + |Ellipsis|
  {
  }

  /** The alt text of a post image. */
  function AltText(caption: string): (r: string)
    ensures caption == "" ==> r == AltPlaceholder
    ensures caption != "" ==> r == Truncate(caption, AltCaptionLength)
    ensures |r| <= AltCaptionLength + |Ellipsis|
  {
    if Truthy(caption) then Truncate(caption, AltCaptionLength) else AltPlaceholder
  }

  /** The caption paragraph of a post card: none for an empty caption,
      otherwise the caption truncated with the default length. */
  function CardCaption(caption: string): (r: Option<string>)
    ensures r.None? <==> caption == ""
    ensures r.Some? ==> r.value == Truncate(caption, DefaultCaptionLength)
    ensures r.Some? ==> |r.value| <= DefaultCaptionLength + |Ellipsis|
    ensures r.Some? && |caption| <= DefaultCaptionLength ==> r.value == caption
  {
    if Truthy(caption) then Some(Truncate(caption, DefaultCaptionLength)) else None
  }

  /** What the news page shows. */
  datatype View =
    /** The skeleton grid: the first page is still on its way. */
    | Skeleton
    /** The full-page error with a reload button. */
    | FullError(message: string)
    /** The feed: an optional partial-failure alert, the post grid or an
        empty notice, and possibly a load-more button. The refresh and
        load-more buttons are both disabled while `loading` holds. */
    | Feed(partialError: Option<string>, showsGrid: bool, loadMoreButton: bool, fetchButtonsDisabled: bool)

  function ChooseView(s: FeedState): (v: View)
    ensures v.Skeleton? <==> s.loading && |s.posts| == 0
    ensures v.FullError? <==> !s.loading && PresentText(s.error) && |s.posts| == 0
    ensures v.FullError? ==> v.message == s.error.value
    ensures v.Feed? ==> (v.partialError.Some? <==> PresentText(s.error) && |s.posts| > 0)
    ensures v.Feed? && v.partialError.Some? ==> v.partialError.value == s.error.value
    ensures v.Feed? ==> (v.showsGrid <==> |s.posts| > 0)
    ensures v.Feed? ==> (v.loadMoreButton <==> |s.posts| > 0 && s.hasMore)
    ensures v.Feed? ==> (v.fetchButtonsDisabled <==> s.loading)
  {
    if s.loading && |s.posts| == 0 then Skeleton
    else if PresentText(s.error) && |s.posts| == 0 then FullError(s.error.value)
    else
      Feed(
        if PresentText(s.error) && |s.posts| > 0 then Some(s.error.value) else None,
        |s.posts| > 0,
        |s.posts| > 0 && s.hasMore,
        s.loading)
  }

  /** Right after mounting the page shows the skeleton. */
  lemma MountShowsSkeleton()
    ensures ChooseView(Mount(NewsPageSize).state) == Skeleton
  {
  }

  /** A first load that fails shows the full-page error with the route's message. */
  lemma FailedFirstLoadShowsError(field: Option<string>)
    ensures
      var s := Complete(Mount(NewsPageSize).state, false, NotOk(field));
      ChooseView(s) == FullError(TextOr(field, FetchFailedText))
  {
  }

  /** A failed load-more keeps the grid and adds the partial-failure alert. */
  lemma FailedLoadMoreShowsAlert(s: FeedState, field: Option<string>)
    requires !LoadMoreBlocked(s) && |s.posts| > 0
    ensures
      var t := Complete(LoadMore(s, NewsPageSize).state, true, NotOk(field));
      ChooseView(t) == Feed(Some(TextOr(field, FetchFailedText)), true, true, false)
  {
  }

  /** In a consistent state every non-empty error message reaches the screen,
      either as the full-page error or as the partial-failure alert. */
  lemma ErrorIsAlwaysShown(s: FeedState)
    requires Consistent(s) && PresentText(s.error)
    ensures ChooseView(s).FullError? || (ChooseView(s).Feed? && ChooseView(s).partialError.Some?)
  {
  }

  /** Pressing a visible, enabled load-more button starts a fetch unless a
      load-more is already in flight. */
  lemma VisibleButtonFetches(s: FeedState)
    requires ChooseView(s).Feed? && ChooseView(s).loadMoreButton && !ChooseView(s).fetchButtonsDisabled
    ensures LoadMore(s, NewsPageSize).request.Some? <==> !s.loadingMore
  {
  }
}

=== FILE: hero.dfy ===
/** The hero slider's counter: five slides numbered 1 to 5, starting at 2,
    with next and previous wrapping around, and a bar whose width is the
    slide's share of the total. */
module Hero {

  const TotalSlides: int := 5
  const InitialSlide: int := 2

  predicate InRange(n: int) {
    1 <= n <= TotalSlides
  }

  /** `nextSlide`: one forward, from the last back to the first. */
  function NextSlide(n: int): (r: int)
    ensures InRange(n) ==> InRange(r) && r == n % TotalSlides + 1
  {
    if n < TotalSlides then n + 1 else 1
  }

  /** `prevSlide`: one back, from the first round to the last. */
  function PrevSlide(n: int): (r: int)
    ensures InRange(n) ==> InRange(r) && r == (n - 2) % TotalSlides + 1
  {
    if n > 1 then n - 1 else TotalSlides
  }

  /** Previous undoes next and next undoes previous. */
  lemma PrevNextInverse(n: int)
    requires InRange(n)
    ensures PrevSlide(NextSlide(n)) == n
    ensures NextSlide(PrevSlide(n)) == n
  {
  }

  /** The slide after pressing next `k` times. */
  function Advance(n: int, k: nat): int
    decreases k
  {
    if k == 0 then n else NextSlide(Advance(n, k - 1))
  }

  /** Pressing next `k` times moves `k` places round the cycle of five. */
  lemma {:induction false} AdvanceIsRotation(n: int, k: nat)
    requires InRange(n)
    ensures Advance(n, k) == (n - 1 + k) % TotalSlides + 1
    decreases k
  {
    if k > 0 {
      AdvanceIsRotation(n, k - 1);
      var m := (n - 1 + k - 1) % TotalSlides;
      assert Advance(n, k - 1) == m + 1;
      assert (m + 1) % TotalSlides == (n - 1 + k) % TotalSlides;
    }
  }

  /** Five presses of next return to the starting slide. */
  lemma FullCycle(n: int)
    requires InRange(n)
    ensures Advance(n, 5) == n
  {
    AdvanceIsRotation(n, 5);
  }

  /** The progress bar's width in percent. */
  function BarWidth(n: int): (w: real)
    ensures InRange(n) ==> 20.0 <= w <= 100.0
    ensures w == 100.0 <==> n == TotalSlides
    ensures InitialSlide == n ==> w == 40.0
  {
    (n as real / TotalSlides as real) * 100.0
  }

  /** The bar grows by one fifth per slide, except when wrapping to the start. */
  lemma BarGrowsWithNext(n: int)
    requires InRange(n) && n < TotalSlides
    ensures BarWidth(NextSlide(n)) == BarWidth(n) + 20.0
  {
  }
}

=== FILE: image_switcher.dfy ===
/** The image switcher (`ScrollImageSwitcher`): the same walk over observer entries as the
    facility switcher, with a 0.3 activation threshold and no progress value,
    plus the effect that re-observes every registered element and the label
    shown above each section on small screens. */
module ImageSwitcher {
  import opened Common
  import opened SectionTracker
  import FacilitySwitcher

  const ActivationThreshold: real := 0.3

  /** The active section on mount: the first id, or "" with no sections. */
  function InitialActive(ids: seq<string>): (active: string)
    ensures |ids| > 0 ==> active == ids[0]
    ensures |ids| == 0 ==> active == ""
  {
    if |ids| > 0 then ids[0] else ""
  }

  /** The observer callback: the chosen section becomes active at or above the
      threshold; otherwise the active section stays. */
  function ApplyBatch(active: string, entries: seq<Entry>): (r: string)
    ensures Activation(entries, ActivationThreshold).None? ==> r == active
    ensures Activation(entries, ActivationThreshold).Some? ==> r == Scan(entries).sectionId && r != ""
  {
    match Activation(entries, ActivationThreshold)
    case None => active
    case Some(id) => id
  }

  /** Whatever this switcher activates, the facility switcher's lower threshold
      activates too, on the same batch. */
  lemma StricterThanFacility(active: string, entries: seq<Entry>)
    requires Activation(entries, ActivationThreshold).Some?
    ensures Activation(entries, FacilitySwitcher.ActivationThreshold) == Some(ApplyBatch(active, entries))
  {
    ActivationMonotone(entries, FacilitySwitcher.ActivationThreshold, ActivationThreshold);
  }

  /** After any sequence of batches the active section is the initial one or an
      id carried by an intersecting entry of one of the batches. */
  function Run(ids: seq<string>, batches: seq<seq<Entry>>): string
    decreases |batches|
  {
    if |batches| == 0 then InitialActive(ids)
    else ApplyBatch(Run(ids, batches[..|batches| - 1]), batches[|batches| - 1])
  }

  ghost predicate CarriedBy(batches: seq<seq<Entry>>, id: string) {
    exists b, k :: 0 <= b < |batches| && 0 <= k < |batches[b]| && batches[b][k].isIntersecting
      && Labelled(batches[b][k]) && batches[b][k].sectionId.value == id
  }

  lemma {:induction false} RunActiveOrigin(ids: seq<string>, batches: seq<seq<Entry>>)
    ensures Run(ids, batches) == InitialActive(ids) || CarriedBy(batches, Run(ids, batches))
    decreases |batches|
  {
    if |batches| > 0 {
      var n := |batches| - 1;
      var prefix := batches[..n];
      RunActiveOrigin(ids, prefix);
      var active := Run(ids, batches);
      if Activation(batches[n], ActivationThreshold).Some? {
        ScanIdOrigin(batches[n]);
        var k :| 0 <= k < |batches[n]| && batches[n][k].isIntersecting && batches[n][k].ratio > 0.0
          && Labelled(batches[n][k]) && batches[n][k].sectionId.value == Scan(batches[n]).sectionId;
        assert CarriedBy(batches, active);
      } else if active != InitialActive(ids) {
        var b, k :| 0 <= b < |prefix| && 0 <= k < |prefix[b]| && prefix[b][k].isIntersecting
          && Labelled(prefix[b][k]) && prefix[b][k].sectionId.value == active;
        assert batches[b] == prefix[b];
      }
    }
  }

  /** The re-observe effect: every registered element is unobserved and
      observed again (`observed` is `None` before the observer exists). */
  function Reobserve<E(==)>(refs: map<string, E>, observed: Option<set<E>>): (r: (map<string, E>, Option<set<E>>))
    ensures r.0 == refs
    ensures observed.None? ==> r.1.None?
    ensures observed.Some? ==> r.1 == Some(observed.value + refs.Values)
  {
    match observed
    case None => (refs, None)
    case Some(current) =>
      var unobserved := current - refs.Values;
      assert unobserved + refs.Values == current + refs.Values;
      (refs, Some(unobserved + refs.Values))
  }

  /** The small-screen label: the section's own value number when present and
      non-empty, else its 1-based position padded to two digits. */
  function MobileLabel(valueNumber: Option<string>, index: nat): (text: string)
    ensures PresentText(valueNumber) ==> text == valueNumber.value
    ensures !PresentText(valueNumber) ==> |text| >= 2 && AllDigits(text) && DigitsValue(text) == index + 1
    ensures !PresentText(valueNumber) && index + 1 < 100 ==> |text| == 2
    ensures !PresentText(valueNumber) ==> text == Pad2(index + 1)
  {
    Pad2RoundTrip(index + 1);
    TextOr(valueNumber, Pad2(index + 1))
  }
}

=== FILE: section_tracker.dfy ===
/** The selection step shared by the two scroll switchers. An observer batch
    is a sequence of entries; the callback walks it once, keeping the largest
    intersection ratio seen so far (starting from 0) and the section id of the
    entry that set it. The map from section id to element that the switchers
    keep is modelled here as well. */
module SectionTracker {
  import opened Common

  /** One observer entry: whether the target intersects the viewport, how much
      of it does, and its `data-section-id` attribute (`None` when missing). */
  datatype Entry = Entry(isIntersecting: bool, ratio: real, sectionId: Option<string>)

  /** The running result of the walk: the best ratio so far and the chosen id. */
  datatype Pick = Pick(maxRatio: real, sectionId: string)

  /** An entry whose section id attribute is present and non-empty. */
  predicate Labelled(e: Entry) {
    PresentText(e.sectionId)
  }

  /** One iteration of the walk. A strictly larger ratio raises the maximum
      even when the entry has no id; only a labelled entry replaces the id. */
  function Visit(p: Pick, e: Entry): (q: Pick)
    ensures q.maxRatio >= p.maxRatio
    ensures e.isIntersecting ==> q.maxRatio >= e.ratio
    ensures q == p || (e.isIntersecting && e.ratio > p.maxRatio && q.maxRatio == e.ratio)
    ensures !Labelled(e) ==> q.sectionId == p.sectionId
    ensures e.isIntersecting && e.ratio > p.maxRatio && Labelled(e) ==> q == Pick(e.ratio, e.sectionId.value)
    ensures !(e.isIntersecting && e.ratio > p.maxRatio) ==> q == p
  {
    if e.isIntersecting && e.ratio > p.maxRatio then
      Pick(e.ratio, if Labelled(e) then e.sectionId.value else p.sectionId)
    else p
  }

  /** The walk over a whole batch, in batch order. */
  function Scan(entries: seq<Entry>): Pick
    decreases |entries|
  {
    if |entries| == 0 then Pick(0.0, "")
    else Visit(Scan(entries[..|entries| - 1]), entries[|entries| - 1])
  }

  /** Every intersecting entry has a ratio of at most `m`. */
  ghost predicate Bounded(entries: seq<Entry>, m: real) {
    forall j :: 0 <= j < |entries| && entries[j].isIntersecting ==> entries[j].ratio <= m
  }

  /** Entry `k` is the first intersecting entry with the largest ratio, and that ratio is positive. */
  ghost predicate IsWinner(entries: seq<Entry>, k: int) {
    && 0 <= k < |entries|
    && entries[k].isIntersecting
    && entries[k].ratio > 0.0
    && Bounded(entries, entries[k].ratio)
    && (forall j :: 0 <= j < k && entries[j].isIntersecting ==> entries[j].ratio < entries[k].ratio)
  }

  /** Every intersecting entry carries a section id. */
  ghost predicate IntersectingLabelled(entries: seq<Entry>) {
    forall j :: 0 <= j < |entries| && entries[j].isIntersecting ==> Labelled(entries[j])
  }

  lemma WinnerUnique(entries: seq<Entry>, k1: int, k2: int)
    requires IsWinner(entries, k1) && IsWinner(entries, k2)
    ensures k1 == k2
  {
  }

  lemma BoundedPrefix(entries: seq<Entry>, m: real)
    requires |entries| > 0 && Bounded(entries, m)
    ensures Bounded(entries[..|entries| - 1], m)
  {
  }

  /** The walk ends with the largest intersecting ratio (or 0), and when that
      is positive it is the ratio of the first entry that attains it. */
  lemma {:induction false} ScanMaximum(entries: seq<Entry>)
    ensures Scan(entries).maxRatio >= 0.0
    ensures Bounded(entries, Scan(entries).maxRatio)
    ensures Scan(entries).maxRatio > 0.0 ==>
      exists k :: IsWinner(entries, k) && entries[k].ratio == Scan(entries).maxRatio
    ensures Scan(entries).maxRatio == 0.0 ==> Scan(entries).sectionId == ""
    decreases |entries|
  {
    if |entries| > 0 {
      var n := |entries| - 1;
      var p := entries[..n];
      var e := entries[n];
      var before := Scan(p);
      ScanMaximum(p);
      assert forall j :: 0 <= j < n ==> entries[j] == p[j];
      if e.isIntersecting && e.ratio > before.maxRatio {
        assert IsWinner(entries, n);
      } else {
        if before.maxRatio > 0.0 {
          var k :| IsWinner(p, k) && p[k].ratio == before.maxRatio;
          assert IsWinner(entries, k);
        }
      }
    }
  }

  /** A chosen id always belongs to some intersecting, labelled entry with a positive ratio. */
  lemma {:induction false} ScanIdOrigin(entries: seq<Entry>)
    ensures Scan(entries).sectionId != "" ==>
      exists k :: 0 <= k < |entries| && entries[k].isIntersecting && entries[k].ratio > 0.0
        && Labelled(entries[k]) && entries[k].sectionId.value == Scan(entries).sectionId
    decreases |entries|
  {
    if |entries| > 0 {
      var n := |entries| - 1;
      var p := entries[..n];
      var e := entries[n];
      ScanIdOrigin(p);
      ScanMaximum(p);
      if Scan(entries).sectionId != "" {
        if e.isIntersecting && e.ratio > Scan(p).maxRatio && Labelled(e) {
          assert entries[n] == e;
        } else {
          var k :| 0 <= k < |p| && p[k].isIntersecting && p[k].ratio > 0.0
            && Labelled(p[k]) && p[k].sectionId.value == Scan(p).sectionId;
          assert entries[k] == p[k];
        }
      }
    }
  }

  /** When every intersecting entry is labelled, the walk chooses the id of the
      first entry with the largest positive ratio: ties go to the earlier entry,
      and entries with ratio 0 never win. */
  lemma {:induction false} ScanChoosesWinner(entries: seq<Entry>, k: int)
    requires IntersectingLabelled(entries)
    requires IsWinner(entries, k)
    ensures Scan(entries).maxRatio == entries[k].ratio
    ensures Scan(entries).sectionId == entries[k].sectionId.value
    decreases |entries|
  {
    var n := |entries| - 1;
    var p := entries[..n];
    var e := entries[n];
    ScanMaximum(entries);
    ScanMaximum(p);
    assert forall j :: 0 <= j < n ==> entries[j] == p[j];
    var m := Scan(entries).maxRatio;
    assert entries[k].ratio <= m;
    assert m > 0.0;
    var w :| IsWinner(entries, w) && entries[w].ratio == m;
    WinnerUnique(entries, w, k);
    if k < n {
      assert IsWinner(p, k) by {
        BoundedPrefix(entries, entries[k].ratio);
      }
      assert IntersectingLabelled(p);
      ScanChoosesWinner(p, k);
      assert !(e.isIntersecting && e.ratio > Scan(p).maxRatio);
    } else {
      if Scan(p).maxRatio > 0.0 {
        var q :| IsWinner(p, q) && p[q].ratio == Scan(p).maxRatio;
        assert entries[q].ratio < e.ratio;
      }
    }
  }

  /** With no intersecting entry of positive ratio, the walk picks nothing. */
  lemma NothingVisibleNothingPicked(entries: seq<Entry>)
    requires Bounded(entries, 0.0)
    ensures Scan(entries) == Pick(0.0, "")
  {
  }

  /** The observer callback's loop, written as the loop it is. */
  method MostVisible(entries: seq<Entry>) returns (maxRatio: real, sectionId: string)
    ensures Pick(maxRatio, sectionId) == Scan(entries)
    ensures maxRatio >= 0.0 && Bounded(entries, maxRatio)
    ensures maxRatio > 0.0 ==> exists k :: IsWinner(entries, k) && entries[k].ratio == maxRatio
  {
    maxRatio := 0.0;
    sectionId := "";
    var i := 0;
    while i < |entries|
      invariant 0 <= i <= |entries|
      invariant Pick(maxRatio, sectionId) == Scan(entries[..i])
    {
      var e := entries[i];
      if e.isIntersecting {
        if e.ratio > maxRatio {
          maxRatio := e.ratio;
          if Labelled(e) {
            sectionId := e.sectionId.value;
          }
        }
      }
      assert entries[..i + 1][..i] == entries[..i];
      i := i + 1;
    }
    assert entries[..i] == entries;
    ScanMaximum(entries);
  }

  /** The id a batch activates under `threshold`, if any: the walk must reach
      the threshold and have chosen a non-empty id. */
  function Activation(entries: seq<Entry>, threshold: real): (r: Option<string>)
    ensures r.Some? <==> Scan(entries).maxRatio >= threshold && Scan(entries).sectionId != ""
    ensures r.Some? ==> r.value == Scan(entries).sectionId
  {
    var p := Scan(entries);
    if p.maxRatio >= threshold && Truthy(p.sectionId) then Some(p.sectionId) else None
  }

  /** A batch that activates under a threshold activates the same id under any lower one. */
  lemma ActivationMonotone(entries: seq<Entry>, low: real, high: real)
    requires low <= high
    requires Activation(entries, high).Some?
    ensures Activation(entries, low) == Activation(entries, high)
  {
  }

  /** `setSectionRef(id, element)`: register on an element, unregister on `null`. */
  function SetSectionRef<E>(refs: map<string, E>, id: string, element: Option<E>): (r: map<string, E>)
    ensures element.Some? ==> id in r && r[id] == element.value
    ensures element.None? ==> id !in r
    ensures forall other :: other != id ==> (other in r <==> other in refs)
    ensures forall other :: other != id && other in r ==> r[other] == refs[other]
  {
    match element
    case Some(el) => refs[id := el]
    case None => refs - {id}
  }

  /** Registering the same id twice keeps only the second element, and
      unregistering undoes any registration of that id. */
  lemma ReRegistration<E>(refs: map<string, E>, id: string, a: E, b: E)
    ensures SetSectionRef(SetSectionRef(refs, id, Some(a)), id, Some(b)) == SetSectionRef(refs, id, Some(b))
    ensures SetSectionRef(SetSectionRef(refs, id, Some(a)), id, None) == SetSectionRef(refs, id, None)
  {
  }
}

=== FILE: text.dfy ===
/** `String.prototype.split` with a non-empty literal separator, its inverse
    `join`, and the facts about them that the title renderer relies on. */
module Text {
  import opened Common

  /** `sep` occurs in `s` starting at index `i`. */
  predicate OccursAt(s: string, sep: string, i: int) {
    0 <= i && i + |sep| <= |s| && s[i..i + |sep|] == sep
  }

  predicate Contains(s: string, sep: string) {
    exists i :: 0 <= i <= |s| && OccursAt(s, sep, i)
  }

  /** The first index at or after `from` where `sep` occurs, if any. */
  function FindFrom(s: string, sep: string, from: nat): (r: Option<nat>)
    requires |sep| > 0
    ensures r.Some? ==> from <= r.value && OccursAt(s, sep, r.value)
    ensures r.Some? ==> forall j :: from <= j < r.value ==> !OccursAt(s, sep, j)
    ensures r.None? ==> forall j :: from <= j ==> !OccursAt(s, sep, j)
    decreases |s| - from
  {
    if from + |sep| > |s| then None
    else if s[from..from + |sep|] == sep then Some(from)
    else FindFrom(s, sep, from + 1)
  }

  /** `s.split(sep)`: the pieces between successive left-most occurrences. */
  function Split(s: string, sep: string): (r: seq<string>)
    requires |sep| > 0
    ensures |r| >= 1
    decreases |s|
  {
    match FindFrom(s, sep, 0)
    case None => [s]
    case Some(i) => [s[..i]] + Split(s[i + |sep|..], sep)
  }

  /** `pieces.join(sep)`. */
  function Join(pieces: seq<string>, sep: string): string {
    if |pieces| == 0 then ""
    else if |pieces| == 1 then pieces[0]
    else pieces[0] + sep + Join(pieces[1..], sep)
  }

  /** Splitting then joining with the same separator gives the string back. */
  lemma {:induction false} JoinSplit(s: string, sep: string)
    requires |sep| > 0
    ensures Join(Split(s, sep), sep) == s
    decreases |s|
  {
    match FindFrom(s, sep, 0)
    case None =>
    case Some(i) =>
      var rest := s[i + |sep|..];
      var tail := Split(rest, sep);
      var pieces := [s[..i]] + tail;
      JoinSplit(rest, sep);
      assert Split(s, sep) == pieces;
      assert pieces[1..] == tail;
      assert Join(pieces, sep) == s[..i] + sep + rest;
      assert s[i..i + |sep|] == sep;
      assert s == s[..i] + s[i..i + |sep|] + rest;
  }

  /** The split yields a single piece exactly when the separator never occurs. */
  lemma SplitSingleIffAbsent(s: string, sep: string)
    requires |sep| > 0
    ensures |Split(s, sep)| == 1 <==> !Contains(s, sep)
  {
  }

  lemma OccursInPrefix(s: string, sep: string, n: nat, j: int)
    requires n <= |s|
    requires OccursAt(s[..n], sep, j)
    ensures OccursAt(s, sep, j)
  {
  }

  /** No piece of a split contains the separator. */
  lemma {:induction false} SplitPiecesFree(s: string, sep: string)
    requires |sep| > 0
    ensures forall k :: 0 <= k < |Split(s, sep)| ==> !Contains(Split(s, sep)[k], sep)
    decreases |s|
  {
    match FindFrom(s, sep, 0)
    case None =>
    case Some(i) =>
      var rest := s[i + |sep|..];
      SplitPiecesFree(rest, sep);
      if Contains(s[..i], sep) {
        var j :| OccursAt(s[..i], sep, j);
        OccursInPrefix(s, sep, i, j);
        assert false;
      }
      var r := Split(s, sep);
      assert r == [s[..i]] + Split(rest, sep);
      forall k | 0 <= k < |r|
        ensures !Contains(r[k], sep)
      {
        if k > 0 {
          assert r[k] == Split(rest, sep)[k - 1];
        }
      }
  }

  /** Every character of a join that is not a separator character comes from one of the pieces. */
  lemma {:induction false} JoinCharOrigin(pieces: seq<string>, sep: string, j: int)
    requires 0 <= j < |Join(pieces, sep)|
    requires Join(pieces, sep)[j] !in sep
    ensures exists k, i :: 0 <= k < |pieces| && 0 <= i < |pieces[k]| && pieces[k][i] == Join(pieces, sep)[j]
    decreases |pieces|
  {
    var joined := Join(pieces, sep);
    if |pieces| == 1 {
      assert pieces[0][j] == joined[j];
    } else {
      var first := pieces[0];
      var rest := Join(pieces[1..], sep);
      assert joined == first + sep + rest;
      if j < |first| {
        assert first[j] == joined[j];
      } else if j < |first| + |sep| {
        assert false;
      } else {
        var j' := j - |first| - |sep|;
        assert rest[j'] == joined[j];
        JoinCharOrigin(pieces[1..], sep, j');
        var k, i :| 0 <= k < |pieces[1..]| && 0 <= i < |pieces[1..][k]| && pieces[1..][k][i] == rest[j'];
        assert pieces[k + 1][i] == joined[j];
      }
    }
  }

  /** A character outside the separator that occurs in a join occurs in one of the pieces. */
  lemma ContainsCharInPiece(pieces: seq<string>, sep: string, c: char)
    requires Contains(Join(pieces, sep), [c]) && c !in sep
    ensures exists k :: 0 <= k < |pieces| && Contains(pieces[k], [c])
  {
    var joined := Join(pieces, sep);
    var j :| 0 <= j <= |joined| && OccursAt(joined, [c], j);
    assert joined[j] == joined[j..j + 1][0] == c;
    JoinCharOrigin(pieces, sep, j);
    var k, i :| 0 <= k < |pieces| && 0 <= i < |pieces[k]| && pieces[k][i] == joined[j];
    assert pieces[k][i..i + 1] == [c];
    assert OccursAt(pieces[k], [c], i);
  }
}

=== FILE: value_title.dfy ===
/** The title renderer of the Value block: a title is broken into lines on the
    two-character escape backslash-n when it contains one, and on real newline
    characters otherwise; a line break is emitted after every line but the last. */
module ValueTitle {
  import opened Common
  import opened Text

  /** The two characters backslash and `n`, as written in data that escaped its newlines. */
  const EscapedBreak: string := "\\n"
  /** A real line-feed character. */
  const Newline: string := "\n"

  /** The lines of a title together with the separator they were cut on. */
  datatype TitleLines = TitleLines(lines: seq<string>, separator: string)

  /** One rendered fragment: a line of text or a `<br />`. */
  datatype Fragment = Line(text: string) | Break

  function SplitTitle(title: string): (r: TitleLines)
    ensures r.separator == EscapedBreak <==> Contains(title, EscapedBreak)
    ensures r.separator == EscapedBreak || r.separator == Newline
    ensures |r.lines| >= 1
    ensures Join(r.lines, r.separator) == title
    ensures forall k :: 0 <= k < |r.lines| ==> !Contains(r.lines[k], r.separator)
  {
    var escaped := Split(title, EscapedBreak);
    SplitSingleIffAbsent(title, EscapedBreak);
    if |escaped| == 1 then
      JoinSplit(title, Newline);
      SplitPiecesFree(title, Newline);
      TitleLines(Split(title, Newline), Newline)
    else
      JoinSplit(title, EscapedBreak);
      SplitPiecesFree(title, EscapedBreak);
      TitleLines(escaped, EscapedBreak)
  }

  /** The fragments the renderer emits for a list of lines. */
  function Fragments(lines: seq<string>): seq<Fragment> {
    if |lines| == 0 then []
    else if |lines| == 1 then [Line(lines[0])]
    else [Line(lines[0]), Break] + Fragments(lines[1..])
  }

  function BreakCount(fs: seq<Fragment>): nat {
    if |fs| == 0 then 0 else (if fs[0].Break? then 1 else 0) + BreakCount(fs[1..])
  }

  function Texts(fs: seq<Fragment>): seq<string> {
    if |fs| == 0 then []
    else if fs[0].Line? then [fs[0].text] + Texts(fs[1..])
    else Texts(fs[1..])
  }

  lemma {:induction false} BreakCountAppend(a: seq<Fragment>, b: seq<Fragment>)
    ensures BreakCount(a + b) == BreakCount(a) + BreakCount(b)
    ensures Texts(a + b) == Texts(a) + Texts(b)
    decreases |a|
  {
    if |a| == 0 {
      assert a + b == b;
    } else {
      assert (a + b)[1..] == a[1..] + b;
      BreakCountAppend(a[1..], b);
    }
  }

  /** The rendered fragments show every line in order, with one break between
      each pair of neighbouring lines and none after the last. */
  lemma {:induction false} FragmentsShape(lines: seq<string>)
    requires |lines| >= 1
    ensures BreakCount(Fragments(lines)) == |lines| - 1
    ensures Texts(Fragments(lines)) == lines
    decreases |lines|
  {
    if |lines| > 1 {
      var head: seq<Fragment> := [Line(lines[0]), Break];
      FragmentsShape(lines[1..]);
      BreakCountAppend(head, Fragments(lines[1..]));
      assert BreakCount(head) == 1;
      assert Texts(head) == [lines[0]];
      assert [lines[0]] + lines[1..] == lines;
    }
  }

  /** Lines and breaks alternate: line `i` sits at position `2i` and every odd
      position holds a break, so the fragments start and end with a line. */
  lemma {:induction false} FragmentsAlternate(lines: seq<string>)
    requires |lines| >= 1
    ensures |Fragments(lines)| == 2 * |lines| - 1
    ensures forall i :: 0 <= i < |lines| ==> Fragments(lines)[2 * i] == Line(lines[i])
    ensures forall i :: 0 <= i < |lines| - 1 ==> Fragments(lines)[2 * i + 1] == Break
    decreases |lines|
  {
    if |lines| > 1 {
      var tail := Fragments(lines[1..]);
      FragmentsAlternate(lines[1..]);
      assert Fragments(lines) == [Line(lines[0]), Break] + tail;
      forall i | 1 <= i < |lines|
        ensures Fragments(lines)[2 * i] == Line(lines[i])
      {
        assert Fragments(lines)[2 * i] == tail[2 * (i - 1)];
      }
      forall i | 1 <= i < |lines| - 1
        ensures Fragments(lines)[2 * i + 1] == Break
      {
        assert Fragments(lines)[2 * i + 1] == tail[2 * (i - 1) + 1];
      }
    }
  }

  /** What `renderTitle` produces for a title. */
  function RenderTitle(title: string): (r: seq<Fragment>)
    ensures Texts(r) == SplitTitle(title).lines
    ensures BreakCount(r) == |SplitTitle(title).lines| - 1
    ensures |r| == 2 * |SplitTitle(title).lines| - 1
    ensures forall i :: 0 <= i < |SplitTitle(title).lines| ==> r[2 * i] == Line(SplitTitle(title).lines[i])
    ensures forall i :: 0 <= i < |SplitTitle(title).lines| - 1 ==> r[2 * i + 1] == Break
  {
    FragmentsShape(SplitTitle(title).lines);
    FragmentsAlternate(SplitTitle(title).lines);
    Fragments(SplitTitle(title).lines)
  }

  /** A title with both kinds of break is cut on the escape only, so its real
      newlines stay inside the lines. */
  lemma EscapeTakesPrecedence(title: string)
    requires Contains(title, EscapedBreak) && Contains(title, Newline)
    ensures SplitTitle(title).separator == EscapedBreak
    ensures exists k :: 0 <= k < |SplitTitle(title).lines| && Contains(SplitTitle(title).lines[k], Newline)
  {
    var r := SplitTitle(title);
    assert Newline == ['\n'] && '\n' !in EscapedBreak;
    ContainsCharInPiece(r.lines, EscapedBreak, '\n');
  }

  /** A concrete mixed title: `a\\nb` followed by a real newline and `c`. */
  lemma MixedBreaksExample()
    ensures SplitTitle("a\\nb\nc") == TitleLines(["a", "b\nc"], EscapedBreak)
  {
    var t := "a\\nb\nc";
    var rest := t[3..];
    assert t[0..2] != EscapedBreak by { assert t[0] == 'a'; }
    assert t[1..3] == EscapedBreak;
    assert FindFrom(t, EscapedBreak, 1) == Some(1);
    assert FindFrom(t, EscapedBreak, 0) == Some(1);
    assert rest == "b\nc";
    assert rest[0..2] != EscapedBreak by { assert rest[0] == 'b'; }
    assert rest[1..3] != EscapedBreak by { assert rest[1] == '\n'; }
    assert FindFrom(rest, EscapedBreak, 2) == None;
    assert FindFrom(rest, EscapedBreak, 1) == None;
    assert FindFrom(rest, EscapedBreak, 0) == None;
    assert Split(rest, EscapedBreak) == [rest];
    assert Split(t, EscapedBreak) == [t[..1]] + Split(rest, EscapedBreak);
    assert t[..1] == "a";
  }
}
